=== FILE: README.md ===
# BRADx chassis controller gateway — Dafny model

This project models the core of the BRADx chassis controller, an HTTP
gateway that turns route calls into requests on the instrument's serial
buses. It covers four parts:

- **Configuration tables** (`config.dfy`):
  - the subsystem and module ids;
  - the reader, pipettor, prep-deck and Meerstetter bus address tables;
  - the step ratios;
  - the heater-name and gantry-axis enums;
  - the two-valued option enums.
- **Response decoders** (`responses.dfy`): how the motor, chassis,
  Meerstetter and LED responses turn a controller's reply text into the
  text shown to the caller.
- **Routes**:
  - the reader routes (`reader.dfy`): version, position, absolute move, home, jog;
  - the LED routes (`led.dfy`): version, channel on, channel off;
  - the TEC routes (`tec.dfy`): read object temperature, set target temperature, reset.
- **Shared pieces**:
  - `bus.dfy` holds the request, packet, reply, envelope and fault records;
  - `text.dfy` models the Python string operations the decoders rely on:
    `in`, `strip`, `split`, `int()` and `str(int)`;
  - `wrappers.dfy` holds `Option` and `Result`.

A Python exception becomes a `Failure` carrying a `Fault`:

| Python | Fault |
|---|---|
| `IndexError` from positional slicing | `IndexOutOfRange` |
| `KeyError` from a table lookup | `MissingKey` |
| `ValueError` from `int()` | `NotAnInteger` |
| `ValueError` raised by an exchange | `ExchangeFailed` |
| allow-list rejection (HTTP 500) | `NotAvailable` |
| LED intensity rejection (HTTP 422) | `IntensityTooHigh` |
| failure of the distance-to-steps conversion | `ConversionFailed` |

`Bus.StatusCode` gives the HTTP status each fault reaches the caller with;
`LedRoutes.LedFaultStatus`, `ReaderRoutes.ReaderFaultsAreServerErrors` and
`TecRoutes.TecFaultsAreServerErrors` tie it to the routes.

The timed bus exchanges are parameters of the routes: a function from the
request packet to a reply or a failure text. So is the distance-to-steps
conversion of the jog route. The random request id is a `sequence` parameter.

Three facts of the code that the model states explicitly:

- Heater A..D sit at Meerstetter chain addresses 1..4. The heater-name
  table maps A, B, C, D to modules 0x0F, 0x0E, 0x0D, 0x0C, and the
  Meerstetter table maps those modules to 1, 2, 3, 4. Both tables are
  reversed, so the reversals cancel (BRADx_config.py:141-162; the TODO at
  line 140 names the A: 1 .. D: 4 convention as the goal).
  `Config.HeaterChainAddress` proves the composition.
- The position route returns the reply data verbatim, with no conversion
  from steps to physical units (reader_submodule.py:100-106).
- The TEC setpoint is an integer route parameter (tec_submodule.py:68).

## Model

| member | source | states |
|---|---|---|
| Config.ReaderAddress | BRADx-API/chassis_controller/app/config/BRADx_config.py:69-86 | the reader bus table is defined exactly on ids 0x01..0x0F, each at the address equal to its id; the imager camera 0x10 has no entry |
| Config.PipettorAddress | BRADx-API/chassis_controller/app/config/BRADx_config.py:89-98 | the pipettor bus table is defined exactly on ids 1..7, including the prep magnetic separator at 6 and the test id at 7, each at the address equal to its id |
| Config.PrepAddress | BRADx-API/chassis_controller/app/config/BRADx_config.py:125-137 | the prep deck table is the identity on ids 0x01..0x0A and has no other entry |
| Config.MeerstetterAddress | BRADx-API/chassis_controller/app/config/BRADx_config.py:141-147 | the Meerstetter table is defined exactly on the OEM heater ids 0x0C..0x0F and sends id to chain address 0x10 - id, within 1..4 |
| Config.AddressTablesInjective | BRADx-API/chassis_controller/app/config/BRADx_config.py:69-147 | no two modules share an address on any of the four buses |
| Config.MeerstetterAddressesOnto | BRADx-API/chassis_controller/app/config/BRADx_config.py:141-147 | the chain addresses are exactly 1..4 and the table has four entries |
| Config.ReaderStepRatioOf | BRADx-API/chassis_controller/app/config/BRADx_config.py:200-207 | only the six motorised reader axes (X, Y, Z, filter wheel, both trays) have a step ratio, and it is 100 |
| Config.PipettorStepRatioOf | BRADx-API/chassis_controller/app/config/BRADx_config.py:192-197 | only the four gantry motors 1..4 have a step ratio, and it is 100 |
| Config.HeaterFromName | BRADx-API/chassis_controller/app/config/BRADx_config.py:150-154 | a name resolves to the heater bearing it, and no heater bears a name that does not resolve |
| Config.HeaterNameRoundTrip | BRADx-API/chassis_controller/app/config/BRADx_config.py:150-154 | every heater's name resolves back to that heater |
| Config.HeaterChainAddress | BRADx-API/chassis_controller/app/config/BRADx_config.py:141-162 | every heater's module id is in the Meerstetter table, and the composition of the two tables puts heater A, B, C, D at chain address 1, 2, 3, 4 |
| Config.GantryAxisId | BRADx-API/chassis_controller/app/config/BRADx_config.py:105-119 | the gantry axes X, Y, Z and drip plate are motors 1..4, each with a pipettor bus address and a step ratio |
| Config.GantryAxisFromValue | BRADx-API/chassis_controller/app/config/BRADx_config.py:105-119 | a text looks up to the gantry axis whose value it is, and any other text finds no axis (the KeyError of the table lookup) |
| Config.GantryAxisValueRoundTrip | BRADx-API/chassis_controller/app/config/BRADx_config.py:105-119 | each axis's value text looks up to that axis |
| Config.GantryAxisIdsDistinct | BRADx-API/chassis_controller/app/config/BRADx_config.py:113-118 | no two gantry axes share a motor |
| Config.OptionTextToInt | BRADx-API/chassis_controller/app/config/BRADx_config.py:175-189 | the text and integer forms of the output-stage and fan-control options agree: "Off"/"Disabled" are 0, "On"/"Enabled" are 1, and no other text has a value |
| Text.Contains | BRADx-API/chassis_controller/app/routers/interfaces/MotorResponse.py:9-19 | Python's substring test: true exactly when the pattern occurs at some offset of the text |
| Text.Strip | BRADx-API/chassis_controller/app/routers/interfaces/MotorResponse.py:13 | `strip` removes a leading and a trailing run of the given characters and keeps the middle as a contiguous slice; the result neither starts nor ends with a stripped character, and text that already does not is unchanged |
| Text.Split | BRADx-API/chassis_controller/app/routers/interfaces/LEDResponse.py:9 | `split` yields one more field than there are separators, none of the fields holds the separator, and joining the fields gives back the text |
| Text.SplitFieldsSound | BRADx-API/chassis_controller/app/routers/interfaces/LEDResponse.py:9 | the character-by-character split has one more field than separators, no field holds the separator, and its fields join back to the text |
| Text.SplitJoin | BRADx-API/chassis_controller/app/routers/interfaces/LEDResponse.py:9-11 | splitting a join of separator-free fields gives back exactly those fields |
| Text.LastField | BRADx-API/chassis_controller/app/routers/interfaces/MotorResponse.py:13 | `split(sep)[-1]` is the longest separator-free suffix: it ends the text, is preceded by the separator when shorter, and is the whole text exactly when the separator does not occur |
| Text.IntToString | BRADx-API/chassis_controller/app/routers/reader_submodule.py:213 | `str(int)` text is the canonical decimal form: a minus sign exactly for negative numbers, then digits with no leading zero ("0" alone for zero, never "-0") |
| Text.ParseIntOfIntToString | BRADx-API/chassis_controller/app/routers/interfaces/LEDResponse.py:11 | `int()` reads back the number `str()` rendered |
| Text.ParseIntRejects | BRADx-API/chassis_controller/app/routers/interfaces/LEDResponse.py:11 | `int()` raises the ValueError on every text holding an ASCII character that is not an ASCII digit, ASCII whitespace, a sign or an underscore |
| Text.ParseIntRejectsBlank | BRADx-API/chassis_controller/app/routers/interfaces/LEDResponse.py:11 | `int()` raises the ValueError on the empty text and on whitespace alone |
| Responses.VersionAt | BRADx-API/chassis_controller/app/routers/interfaces/MotorResponse.py:9-11 | the "vX.Y.Z" triplet is built from characters k, k+1, k+2 of the reply; it succeeds exactly when the reply has them, and otherwise fails with the IndexError at the first missing index |
| Responses.VersionRoundTrip | BRADx-API/chassis_controller/app/routers/interfaces/MotorResponse.py:11 | the "vX.Y.Z" text reads back as its three characters, and only that text does |
| Responses.MotorParse | BRADx-API/chassis_controller/app/routers/interfaces/MotorResponse.py:8-23 | the first of "?ver", "?pos", "home", "mabs" the message contains picks the branch: a version from offsets 8..10, failing exactly on replies shorter than 11 and then with the IndexError at the first missing index; the last comma field of the reply stripped of leading and trailing carriage returns (the whole stripped reply when it has no comma); or succeeded/failed by emptiness; no result exactly when none occurs |
| Responses.MotorParseByToken | BRADx-API/chassis_controller/app/routers/interfaces/MotorResponse.py:8-23 | for each single command token the decoder takes the expected branch; "mrel", "set" and "off" yield no result |
| Responses.MotorPositionRoundTrip | BRADx-API/chassis_controller/app/routers/interfaces/MotorResponse.py:12-13 | a position reply of comma-free fields decodes to its last field verbatim, and a reply ending in a comma to the empty text |
| Responses.ChassisParse | BRADx-API/chassis_controller/app/routers/interfaces/ChassisResponse.py:8-18 | any comma means succeeded; a reply ending in "ff" reads a version from its first three characters; "ff" itself is the one reply that fails, with the IndexError at index 2; "failed" exactly for the empty reply |
| Responses.MeerstetterParse | BRADx-API/chassis_controller/app/routers/interfaces/MeerstetterResponse.py:8-16 | a "?ver" message reads a version from offsets 8..10 and succeeds exactly on replies of 11 or more characters, failing otherwise with the IndexError at the first missing index; any other message gives succeeded/failed by emptiness and never fails |
| Responses.LedParse | BRADx-API/chassis_controller/app/routers/interfaces/LEDResponse.py:8-16 | exactly three commas in the stripped reply make the last field an integer in tenths, or the ValueError when it is not one; any other count gives succeeded/failed, "failed" exactly for the empty reply |
| Responses.LedParseRoundTrip | BRADx-API/chassis_controller/app/routers/interfaces/LEDResponse.py:9-11 | a four-field reply whose last field is `str(x)` decodes to x tenths |
| Responses.StripJoinUnchanged | BRADx-API/chassis_controller/app/routers/interfaces/LEDResponse.py:9 | a comma list with no carriage return at either end is unchanged by `strip("\r")` |
| Bus.StatusCode | BRADx-API/chassis_controller/app/routers/led_submodule.py:71-82 | only the intensity rejection is a 422; every other fault is a 500 (tied to the routes by the three fault-status lemmas below) |
| ReaderRoutes.AdmittedIdsAddressed | BRADx-API/chassis_controller/app/routers/reader_submodule.py:37-54 | every id the reader routes admit has a reader bus entry, so the table lookup after the allow-list never raises |
| ReaderRoutes.GetVersion | BRADx-API/chassis_controller/app/routers/reader_submodule.py:34-70 | not available exactly outside ids 0x01..0x0B; otherwise a "?ver" query to the module's address, the exchange's failure passed on, a version from reply offsets 8..10 exactly when the reply has 11 characters, and the IndexError at the first missing index when it has fewer |
| ReaderRoutes.GetStatusAndPosition | BRADx-API/chassis_controller/app/routers/reader_submodule.py:72-106 | not available exactly outside 0x01..0x0B or for the LED; otherwise a "?pos" query whose reply data is returned verbatim |
| ReaderRoutes.SetAxisPosition | BRADx-API/chassis_controller/app/routers/reader_submodule.py:109-147 | not available exactly outside 0x01..0x0B or for the LED; otherwise a "mabs" command with the position then the velocity as decimal text, reply data verbatim |
| ReaderRoutes.MoveArgumentsReadBack | BRADx-API/chassis_controller/app/routers/reader_submodule.py:109-147 | the move command's two arguments read back as the position and the velocity given |
| ReaderRoutes.HomeAxis | BRADx-API/chassis_controller/app/routers/reader_submodule.py:150-184 | not available exactly outside 0x01..0x0B or for the LED; otherwise a "home" command with no arguments, reply data verbatim |
| ReaderRoutes.JogAxis | BRADx-API/chassis_controller/app/routers/reader_submodule.py:186-228 | not available exactly outside 0x01..0x0B or for the LED; a KeyError exactly for the heater boards 0x08..0x0B, which pass the allow-list but have no step ratio; for an axis, the distance is converted with ratio 100 and sent as "mrel" with steps then velocity |
| ReaderRoutes.EnvelopeIdentifiesModule | BRADx-API/chassis_controller/app/routers/reader_submodule.py:64-69 | every successful reader route answers with subsystem 0x03 and the requested module id, which lies in 0x01..0x0B |
| ReaderRoutes.ReaderFaultsAreServerErrors | BRADx-API/chassis_controller/app/routers/reader_submodule.py:50-63 | every failure of the five reader routes (rejected id, missing step ratio, failed conversion or exchange, short version reply) reaches the caller as a 500 |
| LedRoutes.LedVersion | BRADx-API/chassis_controller/app/routers/led_submodule.py:27-50 | a "?ver" query to the LED board at 0x05 with no allow-list; a version from reply offsets 8..10 exactly when the reply has 11 characters, the IndexError at the first missing index when it has fewer, and the exchange's failure passed on |
| LedRoutes.LedVersionIsReaderVersion | BRADx-API/chassis_controller/app/routers/led_submodule.py:27-50 | the LED version route answers exactly as the reader version route for id 0x05 |
| LedRoutes.LedChannelOn | BRADx-API/chassis_controller/app/routers/led_submodule.py:52-89 | refused with a 422 exactly when the percentage exceeds 100 (intensity above 1000); otherwise a "set" command with the channel then ten times the percentage, answering "0" when the exchange returns |
| LedRoutes.LedIntensityReadsBack | BRADx-API/chassis_controller/app/routers/led_submodule.py:68-74 | an accepted command's intensity argument reads back as ten times the percentage and is at most 1000 |
| LedRoutes.LedChannelOff | BRADx-API/chassis_controller/app/routers/led_submodule.py:91-122 | an "off" command with the channel alone, answering "0" when the exchange returns and the exchange's failure otherwise |
| LedRoutes.ChannelRoutesAnswerDone | BRADx-API/chassis_controller/app/routers/led_submodule.py:77-88 | the channel routes never answer anything but "0"; the "-1" initial value cannot reach the caller |
| LedRoutes.LedFaultStatus | BRADx-API/chassis_controller/app/routers/led_submodule.py:71-82 | the "on" route fails with a 422 exactly when the percentage exceeds 100; every other failure of the three LED routes is a 500 |
| TecRoutes.GetObjectTemperature | BRADx-API/chassis_controller/app/routers/tec_submodule.py:33-63 | the only failure is the exchange's, so the "not available" check never fires; the "Object Temperature" read goes to chain address 1..4 for heater A..D; the envelope names the resolved module id |
| TecRoutes.SetObjectTemperature | BRADx-API/chassis_controller/app/routers/tec_submodule.py:65-99 | not available exactly outside 0x0C..0x0F; otherwise a "Target Object Temp (Set)" write of the setpoint to chain address 0x10 - id, with the reply packet's raw text and data as message and response |
| TecRoutes.Reset | BRADx-API/chassis_controller/app/routers/tec_submodule.py:101-132 | not available exactly outside 0x0C..0x0F; otherwise a reset to chain address 0x10 - id carrying no parameter and no value |
| TecRoutes.GetAndSetAgree | BRADx-API/chassis_controller/app/routers/tec_submodule.py:37-48 | the read route (by heater name) and the set route (by module id) reach the same chain address for the same heater, and every heater's module id passes the set route's allow-list |
| TecRoutes.TecFaultsAreServerErrors | BRADx-API/chassis_controller/app/routers/tec_submodule.py:41-56 | every failure of the three TEC routes reaches the caller as a 500 |

## Left out

- The bus exchanges: the timed serial I/O is a parameter of each route, a function from the request packet to a reply or a failure text.
- The byte encoding of BRADx and Meerstetter requests and packets: requests are kept as logical records. The packet's fourth field (25 or 20) is carried but not interpreted.
- `rand_request_id`: its randomness is replaced by a `sequence` parameter.
- `convert_distance_str_to_steps`: it is a parameter of `ReaderRoutes.JogAxis`, because its source is not part of this model. Two things about it are assumed rather than shown:
  - it returns an integer, so `str(steps)` is `Text.IntToString` (a float would render as "12.0");
  - its failures propagate as an exception that reaches the caller as a 500, not as an `HTTPException` with its own status.
- ReaderRoutes.ReaderFaultsAreServerErrors: the 500 for `ConversionFailed` rests on the second assumption above about the converter.
- The `get_address` method of the gantry-axis enum: it calls a `get_ids` method that the enum does not define, so every call raises. Its debug `print`s are omitted too.
- The `get_addresses` method of the heater enum: it only returns the Meerstetter table.
- FastAPI and pydantic:
  - routing, query parsing and response-model validation are not modelled;
  - channel validation for the LED routes is not modelled; the channel is a character '1'..'6';
  - heater-name validation for the TEC read route is not modelled; the heater is a `Config.Heater`.
- The commented-out LED handlers in the reader routes: they are inactive code.
- `FASTAPI_VERSION`, the Meerstetter VID/PID/serial strings and the `tkinter` import: the routes never use them.
- Responses.LedParse: the decoder's `str(int(x)/10)` float rendering is modelled as the integer x of tenths. The `OverflowError` that `int(x)/10` raises when x/10 lies beyond the float range (|x| above about 1.8·10^309) is not modelled; the model returns the tenths instead.
- Text.ParseInt:
  - `int()` accepting underscores between digits and non-ASCII digits or whitespace is not modelled;
  - only ASCII whitespace, an optional sign and ASCII digits are;
  - the `ValueError` that CPython 3.11 and later raise by default for decimal text of more than 4300 digits is not modelled.
- Text.IntToString: the `ValueError` that CPython 3.11 and later raise by default when `str()` renders an integer of more than 4300 digits is not modelled; the model renders every integer.
- Text.ParseIntOfIntToString: holds for every integer of the model; in CPython 3.11 and later, `str(n)` itself raises a `ValueError` once n has more than 4300 digits, so the round trip is only meaningful below that limit.
- The application entry point and the hardware-interface routes: they are outside the modelled core.

=== FILE: bus.dfy ===
/** The logical request and reply records the routes exchange with the two
    buses, the reply envelope every route returns, and the faults a route
    can end in. The byte encoding of requests and the timed serial exchange
    itself are not modelled: an exchange is a function from the request to
    a reply or a failure message, supplied by the caller. */
module Bus {
  import opened Wrappers

  /** The command tokens of the BRADx bus firmware. */
  datatype Token =
    | QueryVersion
    | QueryPosition
    | MoveAbsolute
    | MoveRelative
    | Home
    | SetChannel
    | ChannelOff

  function TokenText(t: Token): string {
    match t
    case QueryVersion => "?ver"
    case QueryPosition => "?pos"
    case MoveAbsolute => "mabs"
    case MoveRelative => "mrel"
    case Home => "home"
    case SetChannel => "set"
    case ChannelOff => "off"
  }

  /** A BRADx request before encoding: bus address, sequence id, command
      token and the ordered arguments, each already rendered as text. */
  datatype BusRequest = BusRequest(address: int, sequence: int, token: Token, args: seq<string>)

  /** A BRADx bus packet: subsystem id, module id, the request, and the
      packet's numeric fourth field (25 for the query commands, 20 for the
      others), whose meaning belongs to the packet encoder. */
  datatype BusPacket = BusPacket(sid: int, mid: int, request: BusRequest, sizeHint: nat)

  /** What an exchange hands back: the raw reply packet, its data field and
      the round-trip time in microseconds. */
  datatype Reply = Reply(raw: string, data: string, elapsedUs: nat)

  /** One timed BRADx exchange: a reply, or the text of the `ValueError`
      the exchange raised. */
  type BusExchange = BusPacket -> Result<Reply, string>

  /** The three Meerstetter request kinds. */
  datatype MeerstetterKind = GetParameter | SetParameter | SysReset

  /** A Meerstetter request before encoding; `parameter` and `value` are
      absent when the request kind carries none. */
  datatype MeerstetterPacket = MeerstetterPacket(
    kind: MeerstetterKind,
    address: int,
    sequence: int,
    parameter: Option<string>,
    value: Option<int>)

  /** One timed Meerstetter exchange. */
  type MeerstetterExchange = MeerstetterPacket -> Result<Reply, string>

  /** The reply envelope of every route: subsystem id, module id, elapsed
      microseconds, the message shown to the caller and the response text. */
  datatype Envelope<M> = Envelope(sid: int, mid: int, durationUs: nat, message: M, response: string)

  /** How a route or decoder can fail. */
  datatype Fault =
      /** an allow-list check rejected the id (HTTP 500, "not available") */
    | NotAvailable(id: int)
      /** the LED intensity is above the maximum (HTTP 422) */
    | IntensityTooHigh(intensity: int)
      /** a table lookup found no entry (Python `KeyError`) */
    | MissingKey(key: int)
      /** positional slicing ran past the end (Python `IndexError`) */
    | IndexOutOfRange(index: int)
      /** `int(...)` met text that is not an integer (Python `ValueError`) */
    | NotAnInteger(text: string)
      /** the exchange raised; its message is passed on (HTTP 500) */
    | ExchangeFailed(detail: string)
      /** the distance text could not be converted to steps */
    | ConversionFailed(detail: string)

  /** The HTTP status a fault reaches the caller with: only the intensity
      check is a 422; everything else, raised or uncaught, is a 500. */
  function StatusCode(f: Fault): (code: int)
    ensures code == 422 <==> f.IntensityTooHigh?
    ensures code == 422 || code == 500
  {
    if f.IntensityTooHigh? then 422 else 500
  }
}

=== FILE: config.dfy ===
/** The gateway's static device registry: subsystem and module ids, the
    module-id to bus-address tables of each bus, the per-axis step ratios,
    the heater and gantry-axis enumerations and the two-valued options.
    Every table is an immutable map; a lookup outside its keys is the
    Python `KeyError`, modelled as `None`. */
module Config {
  import opened Wrappers

  /* Subsystem ids */
  const ChassisSubsystemId := 0x00
  const PrepDeckSubsystemId := 0x02
  const ReaderSubsystemId := 0x03

  /* Reader module ids */
  const ReaderXAxis := 0x01
  const ReaderYAxis := 0x02
  const ReaderZAxis := 0x03
  const ReaderFilterWheel := 0x04
  const ReaderLed := 0x05
  const ReaderTrayAB := 0x06
  const ReaderTrayCD := 0x07
  const ReaderHeaterCA := 0x08
  const ReaderHeaterCB := 0x09
  const ReaderHeaterCC := 0x0A
  const ReaderHeaterCD := 0x0B
  const ReaderOemHeaterFront1 := 0x0C
  const ReaderOemHeaterFront2 := 0x0D
  const ReaderOemHeaterRear1 := 0x0E
  const ReaderOemHeaterRear2 := 0x0F
  const ReaderImagerCamera := 0x10

  /* Pipettor module ids */
  const PipettorXMotor := 0x01
  const PipettorYMotor := 0x02
  const PipettorZMotor := 0x03
  const PipettorDripMotor := 0x04
  const PipettorAirSystem := 0x05
  const PipettorCamera := 0x06
  const PipettorPipettor := 0x07

  /* Prep deck module ids */
  const PrepPlateChiller := 0x01
  const PrepHeaterShaker := 0x02
  const PrepThermocycler1 := 0x03
  const PrepThermocycler2 := 0x04
  const PrepMarlow := 0x05
  const PrepMagSeparator := 0x06
  const PrepHeaterRna1 := 0x07
  const PrepHeaterRna2 := 0x08
  const PrepHeaterRna3 := 0x09
  const PrepHeaterRna4 := 0x0A

  /** A bench-test module id that shares the pipettor bus. */
  const Test := 0x7

  /** The largest LED intensity the LED board accepts (tenths of a percent). */
  const LedMaxIntensity := 1000

  /** Reader RS-485 bus: module id to bus address. */
  const ReaderBusAddr: map<int, int> := map[
    ReaderXAxis := 0x01,
    ReaderYAxis := 0x02,
    ReaderZAxis := 0x03,
    ReaderFilterWheel := 0x04,
    ReaderLed := 0x05,
    ReaderTrayAB := 0x06,
    ReaderTrayCD := 0x07,
    ReaderHeaterCA := 0x08,
    ReaderHeaterCB := 0x09,
    ReaderHeaterCC := 0x0A,
    ReaderHeaterCD := 0x0B,
    ReaderOemHeaterFront1 := 0x0C,
    ReaderOemHeaterFront2 := 0x0D,
    ReaderOemHeaterRear1 := 0x0E,
    ReaderOemHeaterRear2 := 0x0F
  ]

  /** Pipettor RS-485 bus: module id to bus address. The magnetic separator
      of the prep deck and the test id sit on this bus as well. */
  const PipettorBusAddr: map<int, int> := map[
    PipettorXMotor := 0x01,
    PipettorYMotor := 0x02,
    PipettorZMotor := 0x03,
    PipettorDripMotor := 0x04,
    PipettorAirSystem := 0x05,
    PrepMagSeparator := 0x06,
    Test := 0x7
  ]

  /** Prep deck bus: module id to bus address. */
  const PrepBusAddr: map<int, int> := map[
    PrepPlateChiller := 0x01,
    PrepHeaterShaker := 0x02,
    PrepThermocycler1 := 0x03,
    PrepThermocycler2 := 0x04,
    PrepMarlow := 0x05,
    PrepMagSeparator := 0x06,
    PrepHeaterRna1 := 0x07,
    PrepHeaterRna2 := 0x08,
    PrepHeaterRna3 := 0x09,
    PrepHeaterRna4 := 0x0A
  ]

  /** Meerstetter RS-232 chain: OEM heater module id to chain address. */
  const MeerstetterBusAddr: map<int, int> := map[
    ReaderOemHeaterFront1 := 0x04,
    ReaderOemHeaterFront2 := 0x03,
    ReaderOemHeaterRear1 := 0x02,
    ReaderOemHeaterRear2 := 0x01
  ]

  /** Steps per micrometre of the pipettor gantry motors. */
  const PipettorStepRatio: map<int, int> := map[
    PipettorXMotor := 100,
    PipettorYMotor := 100,
    PipettorZMotor := 100,
    PipettorDripMotor := 100
  ]

  /** Steps per micrometre of the reader motors. */
  const ReaderStepRatio: map<int, int> := map[
    ReaderXAxis := 100,
    ReaderYAxis := 100,
    ReaderZAxis := 100,
    ReaderFilterWheel := 100,
    ReaderTrayAB := 100,
    ReaderTrayCD := 100
  ]

  /** No two keys of `m` share a value. */
  ghost predicate Injective(m: map<int, int>) {
    forall a, b :: a in m && b in m && a != b ==> m[a] != m[b]
  }

  function Lookup(m: map<int, int>, key: int): Option<int> {
    if key in m then Some(m[key]) else None
  }

  /* ------------------------------------------------------------------ */
  /* Address tables                                                      */
  /* ------------------------------------------------------------------ */

  /** Reader bus resolution: defined exactly on module ids 0x01..0x0F, where
      the bus address equals the module id; the imager camera has none. */
  function ReaderAddress(id: int): (a: Option<int>)
    ensures a.Some? <==> ReaderXAxis <= id <= ReaderOemHeaterRear2
    ensures a.Some? ==> a.value == id
  {
    Lookup(ReaderBusAddr, id)
  }

  /** Pipettor bus resolution: defined exactly on ids 1..7 (the gantry
      motors, the air system, the prep deck's magnetic separator at 6 and the
      test id at 7), each at the address equal to its id. */
  function PipettorAddress(id: int): (a: Option<int>)
    ensures a.Some? <==> 1 <= id <= 7
    ensures a.Some? ==> a.value == id && 0x01 <= a.value <= 0x07
  {
    Lookup(PipettorBusAddr, id)
  }

  /** Prep deck resolution: the identity on module ids 0x01..0x0A. */
  function PrepAddress(id: int): (a: Option<int>)
    ensures a.Some? <==> PrepPlateChiller <= id <= PrepHeaterRna4
    ensures a.Some? ==> a.value == id
  {
    Lookup(PrepBusAddr, id)
  }

  /** Meerstetter chain resolution: defined exactly on the four OEM heater
      ids 0x0C..0x0F and reversing their order onto chain addresses 4..1. */
  function MeerstetterAddress(id: int): (a: Option<int>)
    ensures a.Some? <==> ReaderOemHeaterFront1 <= id <= ReaderOemHeaterRear2
    ensures a.Some? ==> a.value == 0x10 - id && 0x01 <= a.value <= 0x04
  {
    Lookup(MeerstetterBusAddr, id)
  }

  /** No two modules share an address on any bus. */
  lemma AddressTablesInjective()
    ensures Injective(ReaderBusAddr)
    ensures Injective(PipettorBusAddr)
    ensures Injective(PrepBusAddr)
    ensures Injective(MeerstetterBusAddr)
  {
    forall a, b | a in PipettorBusAddr && b in PipettorBusAddr && a != b
      ensures PipettorBusAddr[a] != PipettorBusAddr[b]
    {
      assert PipettorAddress(a).value == PipettorBusAddr[a] == a;
      assert PipettorAddress(b).value == PipettorBusAddr[b] == b;
    }
    forall a, b | a in ReaderBusAddr && b in ReaderBusAddr && a != b
      ensures ReaderBusAddr[a] != ReaderBusAddr[b]
    {
      assert ReaderAddress(a).value == a && ReaderAddress(b).value == b;
    }
    forall a, b | a in PrepBusAddr && b in PrepBusAddr && a != b
      ensures PrepBusAddr[a] != PrepBusAddr[b]
    {
      assert PrepAddress(a).value == a && PrepAddress(b).value == b;
    }
    forall a, b | a in MeerstetterBusAddr && b in MeerstetterBusAddr && a != b
      ensures MeerstetterBusAddr[a] != MeerstetterBusAddr[b]
    {
      assert MeerstetterAddress(a).value == 0x10 - a;
      assert MeerstetterAddress(b).value == 0x10 - b;
    }
  }

  /** The Meerstetter chain addresses are exactly 1..4, each used once. */
  lemma MeerstetterAddressesOnto()
    ensures MeerstetterBusAddr.Values == {0x01, 0x02, 0x03, 0x04}
    ensures |MeerstetterBusAddr| == 4
  {
    assert MeerstetterBusAddr[ReaderOemHeaterRear2] == 0x01;
    assert MeerstetterBusAddr[ReaderOemHeaterRear1] == 0x02;
    assert MeerstetterBusAddr[ReaderOemHeaterFront2] == 0x03;
    assert MeerstetterBusAddr[ReaderOemHeaterFront1] == 0x04;
    assert MeerstetterBusAddr.Keys == {0x0C, 0x0D, 0x0E, 0x0F};
  }

  /* ------------------------------------------------------------------ */
  /* Step ratios                                                         */
  /* ------------------------------------------------------------------ */

  /** Reader step ratio: 100 for the six motorised axes X, Y, Z, filter
      wheel and both trays; the LED and the heaters have no entry. */
  function ReaderStepRatioOf(id: int): (r: Option<int>)
    ensures r.Some? <==> id in {ReaderXAxis, ReaderYAxis, ReaderZAxis, ReaderFilterWheel, ReaderTrayAB, ReaderTrayCD}
    ensures r.Some? ==> r.value == 100
  {
    Lookup(ReaderStepRatio, id)
  }

  /** Pipettor step ratio: 100 for the four gantry motors, none otherwise. */
  function PipettorStepRatioOf(id: int): (r: Option<int>)
    ensures r.Some? <==> PipettorXMotor <= id <= PipettorDripMotor
    ensures r.Some? ==> r.value == 100
  {
    Lookup(PipettorStepRatio, id)
  }

  /* ------------------------------------------------------------------ */
  /* Heater names                                                        */
  /* ------------------------------------------------------------------ */

  /** The four Meerstetter-driven heaters, named "Heater A".."Heater D". */
  datatype Heater = HeaterA | HeaterB | HeaterC | HeaterD

  function HeaterName(h: Heater): string {
    match h
    case HeaterA => "Heater A"
    case HeaterB => "Heater B"
    case HeaterC => "Heater C"
    case HeaterD => "Heater D"
  }

  /** The enum's value lookup: a name resolves to the heater bearing it. */
  function HeaterFromName(name: string): (h: Option<Heater>)
    ensures h.Some? ==> HeaterName(h.value) == name
    ensures h.None? ==> forall x: Heater :: HeaterName(x) != name
  {
    if name == "Heater A" then Some(HeaterA)
    else if name == "Heater B" then Some(HeaterB)
    else if name == "Heater C" then Some(HeaterC)
    else if name == "Heater D" then Some(HeaterD)
    else None
  }

  /** The heater-name to module-id table: A and B are the rear heaters
      (REAR_2, REAR_1), C and D the front ones (FRONT_2, FRONT_1). */
  function HeaterModuleId(h: Heater): int {
    match h
    case HeaterA => ReaderOemHeaterRear2
    case HeaterB => ReaderOemHeaterRear1
    case HeaterC => ReaderOemHeaterFront2
    case HeaterD => ReaderOemHeaterFront1
  }

  /** The set of module ids the heater table resolves to. */
  function HeaterModuleIds(): set<int> {
    {HeaterModuleId(HeaterA), HeaterModuleId(HeaterB), HeaterModuleId(HeaterC), HeaterModuleId(HeaterD)}
  }

  /** The intended chain position of heater A..D: 1..4, in name order. */
  function ChainPosition(h: Heater): int {
    match h case HeaterA => 1 case HeaterB => 2 case HeaterC => 3 case HeaterD => 4
  }

  /** Composing the heater table with the Meerstetter chain table: both are
      reversed, so the reversals cancel and heater A..D sits at chain
      address 1..4; every heater resolves, and different heaters resolve to
      different addresses. */
  function HeaterChainAddress(h: Heater): (a: int)
    ensures HeaterModuleId(h) in MeerstetterBusAddr
    ensures a == MeerstetterBusAddr[HeaterModuleId(h)]
    ensures a == ChainPosition(h)
  {
    MeerstetterBusAddr[HeaterModuleId(h)]
  }

  /** Heater names parse back to the heater they name. */
  lemma HeaterNameRoundTrip(h: Heater)
    ensures HeaterFromName(HeaterName(h)) == Some(h)
  {
  }

  /* ------------------------------------------------------------------ */
  /* Pipettor gantry axes                                                */
  /* ------------------------------------------------------------------ */

  datatype GantryAxis = AxisX | AxisY | AxisZ | DripPlate

  /** The text value of each gantry axis. */
  function GantryAxisValue(a: GantryAxis): string {
    match a
    case AxisX => "X"
    case AxisY => "Y"
    case AxisZ => "Z"
    case DripPlate => "Drip Plate"
  }

  /** The key lookup of the gantry-axis table on a text: the axis whose
      value it is, or no axis (the KeyError) for any other text. */
  function GantryAxisFromValue(text: string): (a: Option<GantryAxis>)
    ensures a.Some? ==> GantryAxisValue(a.value) == text
    ensures a.None? ==> forall x: GantryAxis :: GantryAxisValue(x) != text
  {
    if text == "X" then Some(AxisX)
    else if text == "Y" then Some(AxisY)
    else if text == "Z" then Some(AxisZ)
    else if text == "Drip Plate" then Some(DripPlate)
    else None
  }

  /** Every axis value looks up to its own axis. */
  lemma GantryAxisValueRoundTrip(a: GantryAxis)
    ensures GantryAxisFromValue(GantryAxisValue(a)) == Some(a)
  {
  }

  /** The gantry axis to pipettor module id table: X, Y, Z and the drip
      plate are motors 1..4, each with a pipettor bus address and a step
      ratio, and no two axes share a motor. */
  function GantryAxisId(a: GantryAxis): (id: int)
    ensures id == match a case AxisX => 1 case AxisY => 2 case AxisZ => 3 case DripPlate => 4
    ensures id in PipettorBusAddr && id in PipettorStepRatio
  {
    match a
    case AxisX => PipettorXMotor
    case AxisY => PipettorYMotor
    case AxisZ => PipettorZMotor
    case DripPlate => PipettorDripMotor
  }

  /** No two gantry axes share a motor. */
  lemma GantryAxisIdsDistinct(a: GantryAxis, b: GantryAxis)
    ensures a != b ==> GantryAxisId(a) != GantryAxisId(b)
  {
  }

  /* ------------------------------------------------------------------ */
  /* Two-valued options                                                  */
  /* ------------------------------------------------------------------ */

  /** The output-stage switch, offered both as "Off"/"On" and as 0/1. */
  datatype OutputStage = StageOff | StageOn

  function OutputStageText(o: OutputStage): string {
    match o case StageOff => "Off" case StageOn => "On"
  }

  function OutputStageInt(o: OutputStage): int {
    match o case StageOff => 0 case StageOn => 1
  }

  /** The fan-control state, offered both as "Disabled"/"Enabled" and as 0/1. */
  datatype FanControl = FanDisabled | FanEnabled

  function FanControlText(f: FanControl): string {
    match f case FanDisabled => "Disabled" case FanEnabled => "Enabled"
  }

  function FanControlInt(f: FanControl): int {
    match f case FanDisabled => 0 case FanEnabled => 1
  }

  /** Converting an option's text to its integer: "Off" and "Disabled" are
      0, "On" and "Enabled" are 1, nothing else has a value. */
  function OptionTextToInt(text: string): (v: Option<int>)
    ensures v.Some? ==> v.value in {0, 1}
    ensures forall o: OutputStage :: text == OutputStageText(o) ==> v == Some(OutputStageInt(o))
    ensures forall f: FanControl :: text == FanControlText(f) ==> v == Some(FanControlInt(f))
    ensures v.None? <==> text !in {"Off", "On", "Disabled", "Enabled"}
  {
    if text == "Off" || text == "Disabled" then Some(0)
    else if text == "On" || text == "Enabled" then Some(1)
    else None
  }
}

=== FILE: led.dfy ===
/** The LED routes: version of the LED board, channel on at a percentage,
    channel off. All of them address the LED board (reader module 0x05);
    the on and off routes answer "0" whenever the exchange returns. */
module LedRoutes {
  import opened Wrappers
  import opened Text
  import opened Config
  import opened Bus
  import opened Responses
  import ReaderRoutes

  /** An LED channel id, the one-character text "1".."6". */
  type LedChannel = c: char | '1' <= c <= '6' witness '1'

  /** The response text of a channel command that went through. */
  const Done := "0"

  /** GET /led/version: the reader version route fixed to the LED board,
      without an allow-list check. */
  function LedVersion(sequence: int, exchange: BusExchange): (r: Result<Envelope<BusRequest>, Fault>)
    ensures
      var request := BusRequest(0x05, sequence, QueryVersion, []);
      var reply := exchange(BusPacket(ReaderSubsystemId, ReaderLed, request, ReaderRoutes.QuerySize));
      && (reply.Failure? ==> r == Failure(ExchangeFailed(reply.error)))
      && (reply.Success? ==> (r.Success? <==> |reply.value.data| >= 11))
      && (reply.Success? && |reply.value.data| < 11 ==>
            var d := reply.value.data;
            r == Failure(IndexOutOfRange(if |d| <= 8 then 8 else |d|)))
      && (r.Success? ==>
            && r.value.sid == ReaderSubsystemId && r.value.mid == ReaderLed
            && r.value.durationUs == reply.value.elapsedUs && r.value.message == request
            && VersionDigits(r.value.response) == Some((reply.value.data[8], reply.value.data[9], reply.value.data[10])))
  {
    var id := ReaderLed;
    var packet := BusPacket(ReaderSubsystemId, id, BusRequest(ReaderBusAddr[id], sequence, QueryVersion, []), ReaderRoutes.QuerySize);
    var envelope :- ReaderRoutes.Transact(packet, exchange);
    var version :- VersionAt(envelope.response, 8);
    Success(envelope.(response := version))
  }

  /** The LED version route answers exactly as the reader version route
      does for the LED board's id. */
  lemma LedVersionIsReaderVersion(sequence: int, exchange: BusExchange)
    ensures LedVersion(sequence, exchange) == ReaderRoutes.GetVersion(ReaderLed, sequence, exchange)
  {
  }

  /** POST /led/on/: the percentage times ten is the intensity; above the
      maximum of 1000 (a percentage above 100) the route refuses with a 422
      before building a request, and no lower bound is checked. Otherwise a
      "set" command carries the channel then the intensity to the LED board,
      and a returned exchange answers "0". */
  function LedChannelOn(channel: LedChannel, percent: int, sequence: int, exchange: BusExchange): (r: Result<Envelope<BusRequest>, Fault>)
    ensures r == Failure(IntensityTooHigh(percent * 10)) <==> percent > 100
    ensures percent <= 100 ==>
      var request := BusRequest(0x05, sequence, SetChannel, [[channel], IntToString(percent * 10)]);
      var reply := exchange(BusPacket(ReaderSubsystemId, ReaderLed, request, ReaderRoutes.CommandSize));
      && (reply.Failure? ==> r == Failure(ExchangeFailed(reply.error)))
      && (reply.Success? ==> r == Success(Envelope(ReaderSubsystemId, ReaderLed, reply.value.elapsedUs, request, Done)))
  {
    var id := ReaderLed;
    var intensity := percent * 10;
    if intensity > LedMaxIntensity then
      Failure(IntensityTooHigh(intensity))
    else
      var request := BusRequest(ReaderBusAddr[id], sequence, SetChannel, [[channel], IntToString(intensity)]);
      match exchange(BusPacket(ReaderSubsystemId, id, request, ReaderRoutes.CommandSize))
      case Failure(e) => Failure(ExchangeFailed(e))
      case Success(reply) => Success(Envelope(ReaderSubsystemId, id, reply.elapsedUs, request, Done))
  }

  /** The intensity an accepted "on" command carries reads back as ten times
      the percentage and never exceeds the maximum. */
  lemma LedIntensityReadsBack(channel: LedChannel, percent: int, sequence: int, exchange: BusExchange)
    ensures var r := LedChannelOn(channel, percent, sequence, exchange);
      r.Success? ==>
        && |r.value.message.args| == 2
        && ParseInt(r.value.message.args[1]) == Some(percent * 10)
        && percent * 10 <= LedMaxIntensity
  {
    ParseIntOfIntToString(percent * 10);
  }

  /** POST /led/off/: an "off" command carrying the channel alone; a
      returned exchange answers "0". */
  function LedChannelOff(channel: LedChannel, sequence: int, exchange: BusExchange): (r: Result<Envelope<BusRequest>, Fault>)
    ensures
      var request := BusRequest(0x05, sequence, ChannelOff, [[channel]]);
      var reply := exchange(BusPacket(ReaderSubsystemId, ReaderLed, request, ReaderRoutes.CommandSize));
      && (reply.Failure? ==> r == Failure(ExchangeFailed(reply.error)))
      && (reply.Success? ==> r == Success(Envelope(ReaderSubsystemId, ReaderLed, reply.value.elapsedUs, request, Done)))
  {
    var id := ReaderLed;
    var request := BusRequest(ReaderBusAddr[id], sequence, ChannelOff, [[channel]]);
    match exchange(BusPacket(ReaderSubsystemId, id, request, ReaderRoutes.CommandSize))
    case Failure(e) => Failure(ExchangeFailed(e))
    case Success(reply) => Success(Envelope(ReaderSubsystemId, id, reply.elapsedUs, request, Done))
  }

  /** The channel routes never answer anything but "0": a failed exchange
      is a fault, not a "-1" response. */
  lemma ChannelRoutesAnswerDone(channel: LedChannel, percent: int, sequence: int, exchange: BusExchange)
    ensures LedChannelOn(channel, percent, sequence, exchange).Success? ==>
      LedChannelOn(channel, percent, sequence, exchange).value.response == Done
    ensures LedChannelOff(channel, sequence, exchange).Success? ==>
      LedChannelOff(channel, sequence, exchange).value.response == Done
  {
  }

  /** The HTTP status of the LED routes' failures: the "on" route fails with
      a 422 exactly when the percentage exceeds 100; every other failure of
      the three routes is a 500. */
  lemma LedFaultStatus(channel: LedChannel, percent: int, sequence: int, exchange: BusExchange)
    ensures var r := LedChannelOn(channel, percent, sequence, exchange);
      r.Failure? ==> (StatusCode(r.error) == 422 <==> percent > 100)
    ensures var r := LedChannelOn(channel, percent, sequence, exchange);
      percent > 100 ==> r.Failure? && StatusCode(r.error) == 422
    ensures var r := LedChannelOff(channel, sequence, exchange);
      r.Failure? ==> StatusCode(r.error) == 500
    ensures var r := LedVersion(sequence, exchange);
      r.Failure? ==> StatusCode(r.error) == 500
  {
  }
}

=== FILE: reader.dfy ===
/** The reader routes: version, position, absolute move, home and jog of a
    reader module. Each checks the module id against the route's allow-list,
    builds one BRADx request to the module's reader-bus address, performs
    the exchange and wraps the reply into the envelope. */
module ReaderRoutes {
  import opened Wrappers
  import opened Text
  import opened Config
  import opened Bus
  import opened Responses

  /** The ids the version route admits: the motors, the tray and heater
      boards, and the LED board. */
  const VersionIds: set<int> := {
    ReaderXAxis, ReaderYAxis, ReaderZAxis, ReaderFilterWheel, ReaderTrayAB, ReaderTrayCD,
    ReaderHeaterCA, ReaderHeaterCB, ReaderHeaterCC, ReaderHeaterCD, ReaderLed
  }

  /** The ids the position, move, home and jog routes admit: the same
      without the LED board. */
  const MotionIds: set<int> := {
    ReaderXAxis, ReaderYAxis, ReaderZAxis, ReaderFilterWheel, ReaderTrayAB, ReaderTrayCD,
    ReaderHeaterCA, ReaderHeaterCB, ReaderHeaterCC, ReaderHeaterCD
  }

  /** The packets' fourth field for queries and for commands. */
  const QuerySize := 25
  const CommandSize := 20

  /** The packet a route sends to reader module `id`. */
  function ReaderPacket(id: int, sequence: int, token: Token, args: seq<string>, size: nat): BusPacket
    requires id in ReaderBusAddr
  {
    BusPacket(ReaderSubsystemId, id, BusRequest(ReaderBusAddr[id], sequence, token, args), size)
  }

  /** Sends `packet` and wraps the reply's data, unchanged, into the
      envelope; an exchange failure is passed on. */
  function Transact(packet: BusPacket, exchange: BusExchange): Result<Envelope<BusRequest>, Fault>
  {
    match exchange(packet)
    case Failure(e) => Failure(ExchangeFailed(e))
    case Success(reply) => Success(Envelope(ReaderSubsystemId, packet.mid, reply.elapsedUs, packet.request, reply.data))
  }

  /** Every id a reader route admits has a reader-bus entry, at the address
      equal to the id. */
  lemma AdmittedIdsAddressed(id: int)
    requires id in VersionIds
    ensures id in ReaderBusAddr && ReaderBusAddr[id] == id
  {
    assert ReaderAddress(id) == Some(ReaderBusAddr[id]);
  }

  /** GET /reader/axis/version/{id}: ids 0x01..0x0B only; a "?ver" query with
      no arguments to address `id`; the reply data's characters 8..10
      formatted as "vX.Y.Z", an `IndexError` when the data is shorter. */
  function GetVersion(id: int, sequence: int, exchange: BusExchange): (r: Result<Envelope<BusRequest>, Fault>)
    ensures r == Failure(NotAvailable(id)) <==> !(ReaderXAxis <= id <= ReaderHeaterCD)
    ensures ReaderXAxis <= id <= ReaderHeaterCD ==>
      var request := BusRequest(id, sequence, QueryVersion, []);
      var reply := exchange(BusPacket(ReaderSubsystemId, id, request, QuerySize));
      && (reply.Failure? ==> r == Failure(ExchangeFailed(reply.error)))
      && (reply.Success? ==> (r.Success? <==> |reply.value.data| >= 11))
      && (reply.Success? && |reply.value.data| < 11 ==>
            var d := reply.value.data;
            r == Failure(IndexOutOfRange(if |d| <= 8 then 8 else |d|)))
      && (r.Success? ==>
            && r.value.sid == ReaderSubsystemId && r.value.mid == id
            && r.value.durationUs == reply.value.elapsedUs && r.value.message == request
            && VersionDigits(r.value.response) == Some((reply.value.data[8], reply.value.data[9], reply.value.data[10])))
  {
    if id !in VersionIds then
      Failure(NotAvailable(id))
    else
      AdmittedIdsAddressed(id);
      var envelope :- Transact(ReaderPacket(id, sequence, QueryVersion, [], QuerySize), exchange);
      var version :- VersionAt(envelope.response, 8);
      Success(envelope.(response := version))
  }

  /** GET /reader/axis/position/{id}: ids 0x01..0x0B except the LED; a
      "?pos" query with no arguments; the reply data is returned verbatim,
      with no conversion from steps to physical units. */
  function GetStatusAndPosition(id: int, sequence: int, exchange: BusExchange): (r: Result<Envelope<BusRequest>, Fault>)
    ensures r == Failure(NotAvailable(id)) <==> !(ReaderXAxis <= id <= ReaderHeaterCD && id != ReaderLed)
    ensures ReaderXAxis <= id <= ReaderHeaterCD && id != ReaderLed ==>
      var request := BusRequest(id, sequence, QueryPosition, []);
      var reply := exchange(BusPacket(ReaderSubsystemId, id, request, QuerySize));
      && (reply.Failure? ==> r == Failure(ExchangeFailed(reply.error)))
      && (reply.Success? ==> r == Success(Envelope(ReaderSubsystemId, id, reply.value.elapsedUs, request, reply.value.data)))
  {
    if id !in MotionIds then
      Failure(NotAvailable(id))
    else
      AdmittedIdsAddressed(id);
      Transact(ReaderPacket(id, sequence, QueryPosition, [], QuerySize), exchange)
  }

  /** POST /reader/axis/move/{id}: a "mabs" command whose arguments are the
      position then the velocity, as decimal text that reads back as the
      two numbers; the reply data is returned verbatim. */
  function SetAxisPosition(id: int, position: int, velocity: int, sequence: int, exchange: BusExchange): (r: Result<Envelope<BusRequest>, Fault>)
    ensures r == Failure(NotAvailable(id)) <==> !(ReaderXAxis <= id <= ReaderHeaterCD && id != ReaderLed)
    ensures ReaderXAxis <= id <= ReaderHeaterCD && id != ReaderLed ==>
      var request := BusRequest(id, sequence, MoveAbsolute, [IntToString(position), IntToString(velocity)]);
      var reply := exchange(BusPacket(ReaderSubsystemId, id, request, CommandSize));
      && (reply.Failure? ==> r == Failure(ExchangeFailed(reply.error)))
      && (reply.Success? ==> r == Success(Envelope(ReaderSubsystemId, id, reply.value.elapsedUs, request, reply.value.data)))
  {
    if id !in MotionIds then
      Failure(NotAvailable(id))
    else
      AdmittedIdsAddressed(id);
      Transact(ReaderPacket(id, sequence, MoveAbsolute, [IntToString(position), IntToString(velocity)], CommandSize), exchange)
  }

  /** The move command's arguments read back, in order, as the position and
      the velocity the caller gave. */
  lemma MoveArgumentsReadBack(id: int, position: int, velocity: int, sequence: int, exchange: BusExchange)
    ensures var r := SetAxisPosition(id, position, velocity, sequence, exchange);
      r.Success? ==>
        && |r.value.message.args| == 2
        && ParseInt(r.value.message.args[0]) == Some(position)
        && ParseInt(r.value.message.args[1]) == Some(velocity)
  {
    ParseIntOfIntToString(position);
    ParseIntOfIntToString(velocity);
  }

  /** POST /reader/axis/home/{id}: a "home" command with no arguments; the
      reply data is returned verbatim. */
  function HomeAxis(id: int, sequence: int, exchange: BusExchange): (r: Result<Envelope<BusRequest>, Fault>)
    ensures r == Failure(NotAvailable(id)) <==> !(ReaderXAxis <= id <= ReaderHeaterCD && id != ReaderLed)
    ensures ReaderXAxis <= id <= ReaderHeaterCD && id != ReaderLed ==>
      var request := BusRequest(id, sequence, Home, []);
      var reply := exchange(BusPacket(ReaderSubsystemId, id, request, CommandSize));
      && (reply.Failure? ==> r == Failure(ExchangeFailed(reply.error)))
      && (reply.Success? ==> r == Success(Envelope(ReaderSubsystemId, id, reply.value.elapsedUs, request, reply.value.data)))
  {
    if id !in MotionIds then
      Failure(NotAvailable(id))
    else
      AdmittedIdsAddressed(id);
      Transact(ReaderPacket(id, sequence, Home, [], CommandSize), exchange)
  }

  /** POST /reader/axis/jog/{id}: the allow-list admits the heater boards
      0x08..0x0B, but only the six motorised axes have a step ratio, so for
      the heaters the route ends in a `KeyError` before any request is
      built. For an axis the distance is converted with ratio 100 and sent as
      a "mrel" command with arguments steps then velocity. `toSteps` stands
      for the distance parser, which is not part of this model. */
  function JogAxis(
    id: int, distance: string, velocity: int, sequence: int,
    toSteps: (string, int) -> Result<int, string>, exchange: BusExchange): (r: Result<Envelope<BusRequest>, Fault>)
    ensures r == Failure(NotAvailable(id)) <==> !(ReaderXAxis <= id <= ReaderHeaterCD && id != ReaderLed)
    ensures r == Failure(MissingKey(id)) <==> ReaderHeaterCA <= id <= ReaderHeaterCD
    ensures id in {ReaderXAxis, ReaderYAxis, ReaderZAxis, ReaderFilterWheel, ReaderTrayAB, ReaderTrayCD} ==>
      match toSteps(distance, 100)
      case Failure(e) => r == Failure(ConversionFailed(e))
      case Success(steps) =>
        var request := BusRequest(id, sequence, MoveRelative, [IntToString(steps), IntToString(velocity)]);
        var reply := exchange(BusPacket(ReaderSubsystemId, id, request, CommandSize));
        && (reply.Failure? ==> r == Failure(ExchangeFailed(reply.error)))
        && (reply.Success? ==> r == Success(Envelope(ReaderSubsystemId, id, reply.value.elapsedUs, request, reply.value.data)))
  {
    if id !in MotionIds then
      Failure(NotAvailable(id))
    else if id !in ReaderStepRatio then
      Failure(MissingKey(id))
    else
      AdmittedIdsAddressed(id);
      match toSteps(distance, ReaderStepRatio[id])
      case Failure(e) => Failure(ConversionFailed(e))
      case Success(steps) =>
        Transact(ReaderPacket(id, sequence, MoveRelative, [IntToString(steps), IntToString(velocity)], CommandSize), exchange)
  }

  /** Every reader route answers with subsystem 0x03 and the requested
      module id, and never for the imager camera or the OEM heaters. */
  lemma EnvelopeIdentifiesModule(
    id: int, position: int, velocity: int, distance: string, sequence: int,
    toSteps: (string, int) -> Result<int, string>, exchange: BusExchange)
    ensures forall r :: r in [
      GetVersion(id, sequence, exchange),
      GetStatusAndPosition(id, sequence, exchange),
      SetAxisPosition(id, position, velocity, sequence, exchange),
      HomeAxis(id, sequence, exchange),
      JogAxis(id, distance, velocity, sequence, toSteps, exchange)] && r.Success? ==>
        r.value.sid == ReaderSubsystemId && r.value.mid == id && ReaderXAxis <= id <= ReaderHeaterCD
  {
  }

  /** Every failure of every reader route reaches the caller as a 500: a
      rejected id, a missing step ratio, a failed conversion or exchange,
      and a version reply too short to index. */
  lemma ReaderFaultsAreServerErrors(
    id: int, position: int, velocity: int, distance: string, sequence: int,
    toSteps: (string, int) -> Result<int, string>, exchange: BusExchange)
    ensures forall r :: r in [
      GetVersion(id, sequence, exchange),
      GetStatusAndPosition(id, sequence, exchange),
      SetAxisPosition(id, position, velocity, sequence, exchange),
      HomeAxis(id, sequence, exchange),
      JogAxis(id, distance, velocity, sequence, toSteps, exchange)] && r.Failure? ==>
        StatusCode(r.error) == 500 && !r.error.IntensityTooHigh?
  {
  }
}

=== FILE: responses.dfy ===
/** The four response decoders: motor, chassis, Meerstetter and LED. Each
    turns the text a controller sent back (and, for two of them, the
    request message) into the text shown to the caller. Python's
    exceptions become `Failure`s: an `IndexError` when positional slicing
    runs past the end, a `ValueError` when `int()` rejects a field. */
module Responses {
  import opened Wrappers
  import opened Text
  import opened Bus

  /** The characters `strip("\r")` removes. */
  const CarriageReturn: set<char> := {'\r'}

  /* ------------------------------------------------------------------ */
  /* Version triplets                                                    */
  /* ------------------------------------------------------------------ */

  /** "v" + a + "." + b + "." + c */
  function FormatVersion(a: char, b: char, c: char): string {
    ['v', a, '.', b, '.', c]
  }

  /** Reads a "vX.Y.Z" text back into its three characters. */
  function VersionDigits(v: string): Option<(char, char, char)> {
    if |v| == 6 && v[0] == 'v' && v[2] == '.' && v[4] == '.' then Some((v[1], v[3], v[5])) else None
  }

  /** Formatting and reading back a version are inverse to each other. */
  lemma VersionRoundTrip(a: char, b: char, c: char, v: string)
    ensures VersionDigits(FormatVersion(a, b, c)) == Some((a, b, c))
    ensures VersionDigits(v) == Some((a, b, c)) ==> v == FormatVersion(a, b, c)
  {
  }

  /** The positional version extraction: the characters at `k`, `k + 1` and
      `k + 2` of `d` joined as "vX.Y.Z", or the `IndexError` Python raises
      at the first index past the end. */
  function VersionAt(d: string, k: nat): (r: Result<string, Fault>)
    ensures r.Success? <==> k + 3 <= |d|
    ensures r.Success? ==> |r.value| == 6 && VersionDigits(r.value) == Some((d[k], d[k + 1], d[k + 2]))
    ensures r.Failure? ==> r.error == IndexOutOfRange(if |d| <= k then k else |d|)
  {
    if |d| <= k then Failure(IndexOutOfRange(k))
    else if |d| < k + 3 then Failure(IndexOutOfRange(|d|))
    else Success(FormatVersion(d[k], d[k + 1], d[k + 2]))
  }

  /** "succeeded" for any reply at all, "failed" for an empty one. */
  function Outcome(response: string): string {
    if response != "" then "succeeded" else "failed"
  }

  /* ------------------------------------------------------------------ */
  /* MotorResponse.parse                                                 */
  /* ------------------------------------------------------------------ */

  /** The motor decoder. The branch is chosen by the first of "?ver",
      "?pos", "home", "mabs" that the message contains: a version triplet
      from offsets 8..10, the last comma field of the reply stripped of
      carriage returns, or succeeded/failed by emptiness; a message with
      none of them yields no result. */
  function MotorParse(message: string, response: string): (r: Result<Option<string>, Fault>)
    ensures r.Failure? <==> Contains(message, "?ver") && |response| < 11
    ensures r.Failure? ==> r.error == IndexOutOfRange(if |response| <= 8 then 8 else |response|)
    ensures Contains(message, "?ver") && |response| >= 11 ==>
      r.Success? && r.value.Some? && VersionDigits(r.value.value) == Some((response[8], response[9], response[10]))
    ensures !Contains(message, "?ver") && Contains(message, "?pos") ==>
      r == Success(Some(LastField(Strip(response, CarriageReturn), ',')))
    ensures !Contains(message, "?ver") && Contains(message, "?pos") && ',' !in Strip(response, CarriageReturn) ==>
      r == Success(Some(Strip(response, CarriageReturn)))
    ensures (!Contains(message, "?ver") && !Contains(message, "?pos")
      && (Contains(message, "home") || Contains(message, "mabs"))) ==>
      r == Success(Some(if response == "" then "failed" else "succeeded"))
    ensures r == Success(None) <==>
      (!Contains(message, "?ver") && !Contains(message, "?pos")
      && !Contains(message, "home") && !Contains(message, "mabs"))
  {
    if Contains(message, "?ver") then
      var v :- VersionAt(response, 8);
      Success(Some(v))
    else if Contains(message, "?pos") then
      Success(Some(LastField(Strip(response, CarriageReturn), ',')))
    else if Contains(message, "home") then
      Success(Some(Outcome(response)))
    else if Contains(message, "mabs") then
      Success(Some(Outcome(response)))
    else
      Success(None)
  }

  /* ------------------------------------------------------------------ */
  /* ChassisResponse.parse                                               */
  /* ------------------------------------------------------------------ */

  /** The chassis decoder: any comma means success; otherwise a reply ending
      in "ff" is a version read from its first three characters; otherwise
      succeeded/failed by emptiness. The reply "ff" itself is too short for
      the version and is the one failing input. */
  function ChassisParse(response: string): (r: Result<string, Fault>)
    ensures ',' in response ==> r == Success("succeeded")
    ensures r.Failure? <==> response == "ff"
    ensures response == "ff" ==> r == Failure(IndexOutOfRange(2))
    ensures r == Success("failed") <==> response == ""
    ensures ',' !in response && EndsWith(response, "ff") && |response| >= 3 ==>
      r.Success? && VersionDigits(r.value) == Some((response[0], response[1], response[2]))
    ensures ',' !in response && !EndsWith(response, "ff") && response != "" ==> r == Success("succeeded")
  {
    if ',' in response then
      Success("succeeded")
    else if EndsWith(response, "ff") then
      VersionAt(response, 0)
    else
      Success(Outcome(response))
  }

  /* ------------------------------------------------------------------ */
  /* MeerstetterResponse.parse                                           */
  /* ------------------------------------------------------------------ */

  /** The Meerstetter decoder: a "?ver" message reads a version triplet from
      offsets 8..10; any other message yields succeeded/failed by emptiness.
      Which of the two happens depends on the message alone. */
  function MeerstetterParse(message: string, response: string): (r: Result<string, Fault>)
    ensures Contains(message, "?ver") ==> (r.Success? <==> |response| >= 11)
    ensures r.Failure? ==> r.error == IndexOutOfRange(if |response| <= 8 then 8 else |response|)
    ensures Contains(message, "?ver") && r.Success? ==>
      VersionDigits(r.value) == Some((response[8], response[9], response[10]))
    ensures !Contains(message, "?ver") ==> r.Success? && (r.value == "failed" <==> response == "")
    ensures !Contains(message, "?ver") ==> r.Success? && r.value in {"succeeded", "failed"}
  {
    if Contains(message, "?ver") then VersionAt(response, 8) else Success(Outcome(response))
  }

  /* ------------------------------------------------------------------ */
  /* LEDResponse.parse                                                   */
  /* ------------------------------------------------------------------ */

  /** What the LED decoder reads: an intensity in tenths of its last field,
      or a status word. */
  datatype LedReading = Tenths(value: int) | Status(text: string)

  /** The LED decoder. The reply, stripped of carriage returns, is split at
      commas; exactly four fields make the last one an integer read as
      tenths (a `ValueError` if it is not one); any other field count gives
      succeeded/failed by whether the unstripped reply is empty. */
  function LedParse(response: string): (r: Result<LedReading, Fault>)
    ensures var fields := Split(Strip(response, CarriageReturn), ',');
      |fields| != 4 ==> r == Success(Status(if response == "" then "failed" else "succeeded"))
    ensures r == Success(Status("failed")) <==> response == ""
    ensures r.Success? && r.value.Tenths? ==>
      ParseInt(LastField(Strip(response, CarriageReturn), ',')) == Some(r.value.value)
    ensures r.Failure? ==>
      ParseInt(LastField(Strip(response, CarriageReturn), ',')).None?
      && r.error == NotAnInteger(LastField(Strip(response, CarriageReturn), ','))
    ensures r.Success? && r.value.Status? <==> multiset(Strip(response, CarriageReturn))[','] != 3
  {
    var fields := Split(Strip(response, CarriageReturn), ',');
    if |fields| == 4 then
      match ParseInt(Last(fields))
      case Some(v) => Success(Tenths(v))
      case None => Failure(NotAnInteger(Last(fields)))
    else
      Success(Status(Outcome(response)))
  }

  /* ------------------------------------------------------------------ */
  /* Properties relating the decoders to what the controllers send        */
  /* ------------------------------------------------------------------ */

  /** The decoded branch for a message made of one command token alone:
      "?ver" reads a version, "?pos" the last field, "home" and "mabs" the
      outcome, and the other commands (mrel, set, off) yield nothing. */
  lemma MotorParseByToken(t: Token, response: string)
    ensures var r := MotorParse(TokenText(t), response);
      match t
      case QueryVersion =>
        if |response| >= 11 then r == Success(Some(FormatVersion(response[8], response[9], response[10])))
        else r == Failure(VersionAt(response, 8).error)
      case QueryPosition => r == Success(Some(LastField(Strip(response, CarriageReturn), ',')))
      case Home => r == Success(Some(Outcome(response)))
      case MoveAbsolute => r == Success(Some(Outcome(response)))
      case _ => r == Success(None)
  {
    var m := TokenText(t);
    if t == QueryVersion {
      assert StartsWith(m, "?ver");
    } else {
      assert m[0] != '?' || m[1] != 'v';
      assert !Contains(m, "?ver");
      if t == QueryPosition {
        assert StartsWith(m, "?pos");
      } else {
        assert m[0] != '?';
        assert !Contains(m, "?pos");
        if t == Home {
          assert StartsWith(m, "home");
        } else {
          assert m[0] != 'h';
          assert !Contains(m, "home");
          if t == MoveAbsolute {
            assert StartsWith(m, "mabs");
          } else {
            assert m[1] != 'a';
            assert !Contains(m, "mabs");
          }
        }
      }
    }
  }

  /** A comma list with no carriage return at either end is left alone by
      the decoders' `strip("\r")`; empty first or last fields are allowed. */
  lemma StripJoinUnchanged(fields: seq<string>)
    requires |fields| >= 1
    requires fields[0] == [] || fields[0][0] != '\r'
    requires Last(fields) == [] || Last(fields)[|Last(fields)| - 1] != '\r'
    ensures Strip(Join(fields, ','), CarriageReturn) == Join(fields, ',')
  {
    var s := Join(fields, ',');
    JoinEndsWithLast(fields, ',');
    if |fields| == 1 {
      assert s == fields[0];
    } else {
      assert s == fields[0] + [','] + Join(fields[1..], ',');
      assert s[0] == if fields[0] == [] then ',' else fields[0][0];
      if Last(fields) == [] {
        assert s[|s| - 1] == ',';
      } else {
        assert s[|s| - 1] == Last(fields)[|Last(fields)| - 1];
      }
    }
  }

  /** A position reply "f0,...,fn" of comma-free fields decodes to its last
      field, verbatim: no conversion to an integer or to physical units. A
      reply ending in a comma decodes to the empty text. */
  lemma MotorPositionRoundTrip(message: string, fields: seq<string>)
    requires !Contains(message, "?ver") && Contains(message, "?pos")
    requires |fields| >= 1 && forall i :: 0 <= i < |fields| ==> ',' !in fields[i]
    requires fields[0] == [] || fields[0][0] != '\r'
    requires Last(fields) == [] || Last(fields)[|Last(fields)| - 1] != '\r'
    ensures MotorParse(message, Join(fields, ',')) == Success(Some(Last(fields)))
  {
    StripJoinUnchanged(fields);
    SplitJoin(fields, ',');
  }

  /** A four-field LED reply whose last field is `str(x)` decodes to `x`
      tenths. */
  lemma LedParseRoundTrip(a: string, b: string, c: string, x: int)
    requires ',' !in a && ',' !in b && ',' !in c
    requires a == [] || a[0] != '\r'
    ensures LedParse(Join([a, b, c, IntToString(x)], ',')) == Success(Tenths(x))
  {
    var d := IntToString(x);
    assert ',' !in d;
    FourFieldsSplit(a, b, c, d);
    ParseIntOfIntToString(x);
    assert Last([a, b, c, d]) == d;
  }

  /** Four comma-free fields, the first not starting and the last not
      ending with a carriage return, are what the LED decoder splits their
      join back into. */
  lemma FourFieldsSplit(a: string, b: string, c: string, d: string)
    requires ',' !in a && ',' !in b && ',' !in c && ',' !in d
    requires a == [] || a[0] != '\r'
    requires d == [] || d[|d| - 1] != '\r'
    ensures Split(Strip(Join([a, b, c, d], ','), CarriageReturn), ',') == [a, b, c, d]
  {
    var fields := [a, b, c, d];
    var s := Join(fields, ',');
    assert Strip(s, CarriageReturn) == s by {
      assert Last(fields) == d;
      StripJoinUnchanged(fields);
    }
    assert Split(s, ',') == fields by {
      assert forall i :: 0 <= i < |fields| ==> ',' !in fields[i];
      SplitJoin(fields, ',');
    }
  }

}

=== FILE: tec.dfy ===
/** The TEC routes on the Meerstetter chain: read a heater's object
    temperature (by heater name), set a heater's target temperature and
    reset a heater channel (by module id). */
module TecRoutes {
  import opened Wrappers
  import opened Config
  import opened Bus

  const ObjectTemperature := "Object Temperature"
  const TargetObjectTemp := "Target Object Temp (Set)"

  /** The ids the set and reset routes admit: the four OEM heaters. */
  const OemHeaterIds: set<int> := {
    ReaderOemHeaterFront1, ReaderOemHeaterFront2, ReaderOemHeaterRear1, ReaderOemHeaterRear2
  }

  /** Sends `packet` on the chain and reports, for module `id`, the reply
      packet's raw text as the message and its data as the response. */
  function Transact(id: int, packet: MeerstetterPacket, exchange: MeerstetterExchange): Result<Envelope<string>, Fault>
  {
    match exchange(packet)
    case Failure(e) => Failure(ExchangeFailed(e))
    case Success(reply) => Success(Envelope(ReaderSubsystemId, id, reply.elapsedUs, reply.raw, reply.data))
  }

  /** GET /tec/meerstetter/{id}: the heater name resolves to its module id,
      the module id to its chain address (heater A..D at 1..4), and a
      GET_PARAMETER request for "Object Temperature" goes there. The
      "not available" check after resolution can never fire: the only
      failure is the exchange's. The envelope's module id is the resolved
      integer id, not the heater name. */
  function GetObjectTemperature(heater: Heater, sequence: int, exchange: MeerstetterExchange): (r: Result<Envelope<string>, Fault>)
    ensures r.Failure? ==> r.error.ExchangeFailed?
    ensures
      var packet := MeerstetterPacket(GetParameter, ChainPosition(heater), sequence, Some(ObjectTemperature), None);
      var reply := exchange(packet);
      && (reply.Failure? ==> r == Failure(ExchangeFailed(reply.error)))
      && (reply.Success? ==> r == Success(Envelope(ReaderSubsystemId, HeaterModuleId(heater), reply.value.elapsedUs, reply.value.raw, reply.value.data)))
  {
    var id := HeaterModuleId(heater);
    if id !in HeaterModuleIds() then
      Failure(NotAvailable(id))
    else
      Transact(id, MeerstetterPacket(GetParameter, MeerstetterBusAddr[id], sequence, Some(ObjectTemperature), None), exchange)
  }

  /** POST /tec/meerstetter/{id}: ids 0x0C..0x0F only; a SET_PARAMETER
      request for "Target Object Temp (Set)" carrying the setpoint, sent to
      chain address 0x10 - id. */
  function SetObjectTemperature(id: int, setpoint: int, sequence: int, exchange: MeerstetterExchange): (r: Result<Envelope<string>, Fault>)
    ensures r == Failure(NotAvailable(id)) <==> !(ReaderOemHeaterFront1 <= id <= ReaderOemHeaterRear2)
    ensures ReaderOemHeaterFront1 <= id <= ReaderOemHeaterRear2 ==>
      var packet := MeerstetterPacket(SetParameter, 0x10 - id, sequence, Some(TargetObjectTemp), Some(setpoint));
      var reply := exchange(packet);
      && (reply.Failure? ==> r == Failure(ExchangeFailed(reply.error)))
      && (reply.Success? ==> r == Success(Envelope(ReaderSubsystemId, id, reply.value.elapsedUs, reply.value.raw, reply.value.data)))
  {
    if id !in OemHeaterIds then
      Failure(NotAvailable(id))
    else
      Transact(id, MeerstetterPacket(SetParameter, MeerstetterBusAddr[id], sequence, Some(TargetObjectTemp), Some(setpoint)), exchange)
  }

  /** POST /tec/meerstetter/reset/{id}: ids 0x0C..0x0F only; a SYS_RESET
      request carrying the chain address and sequence id and nothing else. */
  function Reset(id: int, sequence: int, exchange: MeerstetterExchange): (r: Result<Envelope<string>, Fault>)
    ensures r == Failure(NotAvailable(id)) <==> !(ReaderOemHeaterFront1 <= id <= ReaderOemHeaterRear2)
    ensures ReaderOemHeaterFront1 <= id <= ReaderOemHeaterRear2 ==>
      var packet := MeerstetterPacket(SysReset, 0x10 - id, sequence, None, None);
      var reply := exchange(packet);
      && (reply.Failure? ==> r == Failure(ExchangeFailed(reply.error)))
      && (reply.Success? ==> r == Success(Envelope(ReaderSubsystemId, id, reply.value.elapsedUs, reply.value.raw, reply.value.data)))
  {
    if id !in OemHeaterIds then
      Failure(NotAvailable(id))
    else
      Transact(id, MeerstetterPacket(SysReset, MeerstetterBusAddr[id], sequence, None, None), exchange)
  }

  /** Reading a heater by name and setting it by its module id reach the
      same chain address. */
  lemma GetAndSetAgree(heater: Heater, setpoint: int, sequence: int, exchange: MeerstetterExchange)
    ensures HeaterModuleId(heater) in OemHeaterIds
    ensures 0x10 - HeaterModuleId(heater) == ChainPosition(heater) == HeaterChainAddress(heater)
  {
  }

  /** Every failure of every TEC route reaches the caller as a 500. */
  lemma TecFaultsAreServerErrors(heater: Heater, id: int, setpoint: int, sequence: int, exchange: MeerstetterExchange)
    ensures forall r :: r in [
      GetObjectTemperature(heater, sequence, exchange),
      SetObjectTemperature(id, setpoint, sequence, exchange),
      Reset(id, sequence, exchange)] && r.Failure? ==>
        StatusCode(r.error) == 500
  {
  }
}

=== FILE: text.dfy ===
/** The Python string operations the decoders and routes rely on, over
    `string` (a `seq<char>`): substring containment (`t in s`), `strip`,
    `split` on one separator character, `int(...)` and `str(n)`. */
module Text {
  import opened Wrappers

  /* ------------------------------------------------------------------ */
  /* Substring containment                                               */
  /* ------------------------------------------------------------------ */

  /** `t` occurs in `s` starting at index `i`. */
  ghost predicate OccursAt(s: string, t: string, i: int) {
    0 <= i && i + |t| <= |s| && s[i..i + |t|] == t
  }

  predicate StartsWith(s: string, t: string) {
    |t| <= |s| && s[..|t|] == t
  }

  predicate EndsWith(s: string, t: string) {
    |t| <= |s| && s[|s| - |t|..] == t
  }

  lemma OccursAtTail(s: string, t: string, i: int)
    requires |s| > 0 && 0 <= i
    ensures OccursAt(s[1..], t, i) <==> OccursAt(s, t, i + 1)
  {
    if 0 <= i && i + |t| <= |s| - 1 {
      assert s[1..][i..i + |t|] == s[i + 1..i + 1 + |t|];
    }
  }

  /** Python's `t in s` on strings, scanning `s` from the left. */
  function Contains(s: string, t: string): (b: bool)
    ensures b <==> exists i :: OccursAt(s, t, i)
    decreases |s|
  {
    if |s| < |t| then
      false
    else if StartsWith(s, t) then
      assert OccursAt(s, t, 0);
      true
    else
      var b := Contains(s[1..], t);
      assert b ==> exists i :: OccursAt(s, t, i) by {
        if b {
          var i :| OccursAt(s[1..], t, i);
          OccursAtTail(s, t, i);
        }
      }
      assert (exists i :: OccursAt(s, t, i)) ==> b by {
        if exists i :: OccursAt(s, t, i) {
          var i :| OccursAt(s, t, i);
          assert i != 0;
          OccursAtTail(s, t, i - 1);
        }
      }
      b
  }

  /* ------------------------------------------------------------------ */
  /* strip                                                               */
  /* ------------------------------------------------------------------ */

  /** The number of leading characters of `s` that are in `cs`. */
  function LeadingRun(s: string, cs: set<char>): (n: nat)
    ensures n <= |s|
    ensures forall k :: 0 <= k < n ==> s[k] in cs
    ensures n < |s| ==> s[n] !in cs
    decreases |s|
  {
    if |s| > 0 && s[0] in cs then 1 + LeadingRun(s[1..], cs) else 0
  }

  /** The number of trailing characters of `s` that are in `cs`. */
  function TrailingRun(s: string, cs: set<char>): (n: nat)
    ensures n <= |s|
    ensures forall k :: |s| - n <= k < |s| ==> s[k] in cs
    ensures n < |s| ==> s[|s| - n - 1] !in cs
    decreases |s|
  {
    if |s| > 0 && s[|s| - 1] in cs then 1 + TrailingRun(s[..|s| - 1], cs) else 0
  }

  /** Python's `s.strip(cs)`: the slice of `s` left once every leading and
      every trailing character in `cs` is removed. */
  function Strip(s: string, cs: set<char>): (r: string)
    ensures var lo := LeadingRun(s, cs);
      && lo + |r| <= |s|
      && r == s[lo..lo + |r|]
      && (forall k :: lo + |r| <= k < |s| ==> s[k] in cs)
    ensures r == [] || (r[0] !in cs && r[|r| - 1] !in cs)
    ensures (s == [] || (s[0] !in cs && s[|s| - 1] !in cs)) ==> r == s
  {
    var lo := LeadingRun(s, cs);
    var t := TrailingRun(s[lo..], cs);
    s[lo..|s| - t]
  }

  /* ------------------------------------------------------------------ */
  /* split                                                               */
  /* ------------------------------------------------------------------ */

  /** `sep.join(fields)`. */
  function Join(fields: seq<string>, sep: char): string
    requires |fields| >= 1
  {
    if |fields| == 1 then fields[0] else fields[0] + [sep] + Join(fields[1..], sep)
  }

  function Last<T>(xs: seq<T>): T
    requires |xs| > 0
  {
    xs[|xs| - 1]
  }

  /** Python's `s.split(sep)` for a one-character separator: never empty,
      one field more than there are separators, no field holds the
      separator, and joining the fields gives `s` back. */
  function Split(s: string, sep: char): (fields: seq<string>)
    ensures |fields| == multiset(s)[sep] + 1
    ensures forall i :: 0 <= i < |fields| ==> sep !in fields[i]
    ensures Join(fields, sep) == s
  {
    SplitFieldsSound(s, sep);
    SplitFields(s, sep)
  }

  /** The split computed one character at a time from the end. */
  function SplitFields(s: string, sep: char): (fields: seq<string>)
    ensures |fields| >= 1
    decreases |s|
  {
    if |s| == 0 then [""] else SplitPrefix(s[0], sep, SplitFields(s[1..], sep))
  }

  /** One step of the split: a separator opens a new empty first field,
      any other character joins the front of the first field. */
  function SplitPrefix(c: char, sep: char, rest: seq<string>): seq<string>
    requires |rest| >= 1
  {
    if c == sep then [""] + rest else [[c] + rest[0]] + rest[1..]
  }

  /** The computed split has the three properties of Python's split. */
  lemma {:induction false} SplitFieldsSound(s: string, sep: char)
    ensures var fields := SplitFields(s, sep);
      && |fields| == multiset(s)[sep] + 1
      && (forall i :: 0 <= i < |fields| ==> sep !in fields[i])
      && Join(fields, sep) == s
    decreases |s|
  {
    if |s| > 0 {
      SplitFieldsSound(s[1..], sep);
      SplitStep(s, sep, SplitFields(s[1..], sep));
    }
  }

  /** The split of `s[1..]` stepped by `s[0]` is a split of `s`. */
  lemma SplitStep(s: string, sep: char, rest: seq<string>)
    requires |s| > 0 && |rest| >= 1
    requires |rest| == multiset(s[1..])[sep] + 1
    requires forall i :: 0 <= i < |rest| ==> sep !in rest[i]
    requires Join(rest, sep) == s[1..]
    ensures var fields := SplitPrefix(s[0], sep, rest);
      && |fields| == multiset(s)[sep] + 1
      && (forall i :: 0 <= i < |fields| ==> sep !in fields[i])
      && Join(fields, sep) == s
  {
    SeparatorCount(s, sep);
    var fields := SplitPrefix(s[0], sep, rest);
    if s[0] == sep {
      assert fields[1..] == rest;
      assert s == [sep] + s[1..];
      assert Join(fields, sep) == "" + [sep] + Join(rest, sep);
    } else {
      JoinPrepend(s[0], rest, sep);
      assert s == [s[0]] + s[1..];
      forall i | 0 <= i < |fields|
        ensures sep !in fields[i]
      {
        if i == 0 {
          assert fields[0] == [s[0]] + rest[0];
        } else {
          assert fields[i] == rest[i];
        }
      }
    }
  }

  /** The separator count of a non-empty string, by its first character. */
  lemma SeparatorCount(s: string, sep: char)
    requires |s| > 0
    ensures multiset(s)[sep] == (if s[0] == sep then 1 else 0) + multiset(s[1..])[sep]
  {
    assert s == [s[0]] + s[1..];
    assert multiset(s) == multiset([s[0]]) + multiset(s[1..]);
  }

  /** Prepending a character to the first field prepends it to the join. */
  lemma JoinPrepend(c: char, fields: seq<string>, sep: char)
    requires |fields| >= 1
    ensures Join([[c] + fields[0]] + fields[1..], sep) == [c] + Join(fields, sep)
  {
    var g := [[c] + fields[0]] + fields[1..];
    if |fields| > 1 {
      assert g[1..] == fields[1..];
      assert Join(g, sep) == ([c] + fields[0]) + [sep] + Join(fields[1..], sep);
      assert Join(fields, sep) == fields[0] + [sep] + Join(fields[1..], sep);
    }
  }

  /** Splitting what was joined from separator-free fields gives the fields back. */
  lemma {:induction false} SplitJoin(fields: seq<string>, sep: char)
    requires |fields| >= 1
    requires forall i :: 0 <= i < |fields| ==> sep !in fields[i]
    ensures Split(Join(fields, sep), sep) == fields
    decreases |fields|
  {
    if |fields| == 1 {
      SplitFree(fields[0], sep);
    } else {
      SplitJoin(fields[1..], sep);
      SplitCons(fields[0], sep, Join(fields[1..], sep));
      assert fields == [fields[0]] + fields[1..];
    }
  }

  /** A string without the separator splits into itself alone. */
  lemma SplitFree(s: string, sep: char)
    requires sep !in s
    ensures Split(s, sep) == [s]
  {
    assert multiset(s)[sep] == 0;
    var fields := Split(s, sep);
    assert Join(fields, sep) == fields[0];
  }

  /** A separator-free head followed by the separator is split off as the first field. */
  lemma {:induction false} SplitCons(head: string, sep: char, tail: string)
    requires sep !in head
    ensures Split(head + [sep] + tail, sep) == [head] + Split(tail, sep)
  {
    SplitFieldsCons(head, sep, tail);
  }

  lemma {:induction false} SplitFieldsCons(head: string, sep: char, tail: string)
    requires sep !in head
    ensures SplitFields(head + [sep] + tail, sep) == [head] + SplitFields(tail, sep)
    decreases |head|
  {
    var s := head + [sep] + tail;
    if |head| == 0 {
      assert s[0] == sep && s[1..] == tail;
    } else {
      assert s[0] == head[0] && s[1..] == head[1..] + [sep] + tail;
      SplitFieldsCons(head[1..], sep, tail);
      var rest := [head[1..]] + SplitFields(tail, sep);
      assert rest[0] == head[1..] && rest[1..] == SplitFields(tail, sep);
      assert [head[0]] + head[1..] == head;
    }
  }

  /** The last field of `s.split(sep)`, i.e. `s.split(sep)[-1]`: a suffix of
      `s` without the separator, preceded by the separator unless it is all
      of `s`, and all of `s` exactly when `s` has no separator. */
  function LastField(s: string, sep: char): (f: string)
    ensures sep !in f
    ensures EndsWith(s, f)
    ensures |f| < |s| ==> s[|s| - |f| - 1] == sep
    ensures f == s <==> sep !in s
  {
    var fields := Split(s, sep);
    JoinEndsWithLast(fields, sep);
    Last(fields)
  }

  lemma {:induction false} JoinEndsWithLast(fields: seq<string>, sep: char)
    requires |fields| >= 1
    ensures var j := Join(fields, sep); var f := Last(fields);
      && EndsWith(j, f)
      && (|fields| == 1 ==> f == j)
      && (|fields| > 1 ==> |f| < |j| && j[|j| - |f| - 1] == sep)
    decreases |fields|
  {
    if |fields| > 1 {
      JoinEndsWithLast(fields[1..], sep);
      var j' := Join(fields[1..], sep);
      var j := Join(fields, sep);
      assert j == fields[0] + [sep] + j';
      assert Last(fields) == Last(fields[1..]);
      assert j[|j| - |j'|..] == j';
    }
  }

  /* ------------------------------------------------------------------ */
  /* str(n) and int(s)                                                   */
  /* ------------------------------------------------------------------ */

  predicate IsDigit(c: char) {
    '0' <= c <= '9'
  }

  function DigitValue(c: char): nat
    requires IsDigit(c)
  {
    c as int - '0' as int
  }

  function DigitChar(d: nat): (c: char)
    requires d < 10
    ensures IsDigit(c) && DigitValue(c) == d
  {
    ('0' as int + d) as char
  }

  /** A non-empty run of ASCII decimal digits. */
  predicate AllDigits(s: string) {
    |s| > 0 && forall k :: 0 <= k < |s| ==> IsDigit(s[k])
  }

  /** The value of a run of decimal digits, most significant first. */
  function DigitsValue(s: string): nat
    requires forall k :: 0 <= k < |s| ==> IsDigit(s[k])
  {
    if |s| == 0 then 0 else DigitsValue(s[..|s| - 1]) * 10 + DigitValue(s[|s| - 1])
  }

  /** Python's `str(n)` for a non-negative integer: decimal digits with no
      leading zero. */
  function NatToString(n: nat): (s: string)
    ensures AllDigits(s)
    ensures s[0] == '0' ==> n == 0 && s == "0"
    decreases n
  {
    if n < 10 then [DigitChar(n)] else NatToString(n / 10) + [DigitChar(n % 10)]
  }

  /** Python's `str(n)` for any integer: the canonical decimal text, with
      no leading zero except in "0" itself and no "-0". */
  function IntToString(n: int): (s: string)
    ensures |s| > 0 && IsDigit(s[|s| - 1])
    ensures s[0] == '-' <==> n < 0
    ensures forall k :: 0 <= k < |s| ==> IsDigit(s[k]) || (k == 0 && s[k] == '-')
    ensures s[0] == '0' ==> s == "0"
    ensures s[0] == '-' ==> s[1] != '0'
  {
    if n < 0 then "-" + NatToString(-n) else NatToString(n)
  }

  /** The ASCII characters that Python's `int()` ignores around a number. */
  const IntWhitespace: set<char> :=
    {' ', '\t', '\n', '\r', '\U{000B}', '\U{000C}', '\U{001C}', '\U{001D}', '\U{001E}', '\U{001F}'}

  /** Python's `int(s)` on a string: surrounding whitespace, an optional
      sign, then decimal digits; anything else is a `ValueError` (`None`). */
  function ParseInt(s: string): Option<int>
  {
    var t := Strip(s, IntWhitespace);
    if |t| > 0 && (t[0] == '-' || t[0] == '+') then
      if AllDigits(t[1..]) then
        var v: int := DigitsValue(t[1..]);
        Some(if t[0] == '-' then -v else v)
      else
        None
    else if AllDigits(t) then
      Some(DigitsValue(t))
    else
      None
  }

  lemma {:induction false} DigitsValueOfNatToString(n: nat)
    ensures DigitsValue(NatToString(n)) == n
    decreases n
  {
    if n >= 10 {
      DigitsValueOfNatToString(n / 10);
      var s := NatToString(n);
      assert s[..|s| - 1] == NatToString(n / 10);
    }
  }

  /** `str(n)` has no whitespace around it for `int()` to strip. */
  lemma IntToStringUnstripped(n: int)
    ensures Strip(IntToString(n), IntWhitespace) == IntToString(n)
  {
    var s := IntToString(n);
    assert s[0] == '-' || IsDigit(s[0]);
    assert s[0] !in IntWhitespace;
    assert s[|s| - 1] !in IntWhitespace;
  }

  /** `int(str(n)) == n`: every argument the routes render can be read back. */
  lemma ParseIntOfIntToString(n: int)
    ensures ParseInt(IntToString(n)) == Some(n)
  {
    var s := IntToString(n);
    IntToStringUnstripped(n);
    if n < 0 {
      var digits := NatToString(-n);
      assert s[1..] == digits;
      DigitsValueOfNatToString(-n);
      assert AllDigits(s[1..]);
    } else {
      DigitsValueOfNatToString(n);
      assert s[0] != '-' && s[0] != '+';
    }
  }

  /** `int()` raises a `ValueError` on any text holding an ASCII character
      that is neither an ASCII digit, ASCII whitespace, a sign nor an
      underscore (Python accepts underscores between digits and non-ASCII
      digits, so those are not claimed). */
  lemma ParseIntRejects(s: string, k: int)
    requires 0 <= k < |s|
    requires !IsDigit(s[k]) && s[k] !in IntWhitespace && s[k] != '+' && s[k] != '-'
    requires s[k] != '_' && s[k] < '\U{0080}'
    ensures ParseInt(s).None?
  {
    var t := Strip(s, IntWhitespace);
    var lo := LeadingRun(s, IntWhitespace);
    assert lo <= k < lo + |t|;
    assert t[k - lo] == s[k];
    if |t| > 0 && (t[0] == '-' || t[0] == '+') {
      assert t[1..][k - lo - 1] == s[k];
    }
  }

  /** `int()` raises a `ValueError` on the empty text and on whitespace alone. */
  lemma ParseIntRejectsBlank(s: string)
    requires forall k :: 0 <= k < |s| ==> s[k] in IntWhitespace
    ensures ParseInt(s).None?
  {
  }
}

=== FILE: wrappers.dfy ===
/** Failure-compatible wrappers used throughout the model: `Option` for a
    value that may be absent (a Python `None`) and `Result` for a value or
    the exception that the Python code would raise instead. */
module Wrappers {

  datatype Option<+T> = None | Some(value: T) {

    predicate IsFailure() {
      None?
    }

    function PropagateFailure<U>(): Option<U>
      requires None?
    {
      None
    }

    function Extract(): T
      requires Some?
    {
      value
    }
  }

  datatype Result<+R, +E> = Success(value: R) | Failure(error: E) {

    predicate IsFailure() {
      Failure?
    }

    function PropagateFailure<U>(): Result<U, E>
      requires Failure?
    {
      Failure(error)
    }

    function Extract(): R
      requires Success?
    {
      value
    }
  }
}
